=== FILE: README.md ===
# Loyalty app core, modelled in Dafny

This project models the non-UI core of a mobile loyalty/rewards client written in Kotlin:

- **Login flow.** The API service's login call (`ApiServiceImpl`) issues one POST. It treats a 2xx status as success, extracts a server message from an error body, and translates transport exceptions by first-matching `catch`. The repository (`AuthRepositoryImpl`) copies the wire response into the domain result. The login view model (`LoginViewModel`) is the four-state screen machine Initial / Loading / Success / Error.
- **Session store** (`PreferencesManager`). The session is kept in a key-value store with nine typed keys. It is published through two observable cells: the current user and the auth token. The operations are save, update token, clear, logged-in check and current user, plus the collector that reloads the cells whenever the store emits.
- **History pagination** (`PurchaseViewModel`, `SwapViewModel`). History is shown ten items per page, with guarded next / previous / go-to-page. The purchase view model adds a by-id detail lookup.
- **Recycle level** (`ScoreViewModel`). A five-tier threshold table over the user's point total.

Each source component is one module:

| file | module | models |
|---|---|---|
| `wrappers.dfy` | `Wrappers` | Kotlin nullables as `Option`, elvis as `GetOr` |
| `exceptions.dfy` | `Exceptions` | the exception classes and the subclass relation, thrown exceptions, `Result` |
| `login_model.dfy` | `LoginModel` | `LoginRequest`, `LoginResponse`, `LoginResult` |
| `auth_repository.dfy` | `AuthRepository` | `AuthRepositoryImpl.login` |
| `api_service.dfy` | `ApiService` | `ApiServiceImpl`: status check, `parseErrorMessage`, `safeApiCall` |
| `session_store.dfy` | `SessionStore` | `PreferencesManager` and `UserData` |
| `login_view_model.dfy` | `LoginFlow` | `LoginViewModel` and `LoginUiState` |
| `pagination.dfy` | `Pagination` | the page logic shared by the purchase and swap view models |
| `purchase_history.dfy` | `PurchaseHistory` | purchase records and `getPurchaseDetail` |
| `swap_history.dfy` | `SwapHistory` | swap records and the sample history |
| `recycle_level.dfy` | `RecycleLevel` | `calculateRecycleLevel`, its call site, `RecycleLevel` |

How the model represents the app:

- Every operation is a pure function over immutable state records.
- Foreign code is an input: the HTTP engine's outcome, the body decoder's outcome, the JSON parser (a function from text to an optional tree), the repository seen from the view model, and the commit or failure of each store edit.
- Coroutines run as sequential steps. The store's collector is the explicit step `SessionStore.Collect`, which may be applied after any committed edit.
- A login run records its observable steps in order: the state shown, the repository call, and the persist. This lets the order of effects be stated.

## Model

| member | source | states |
|---|---|---|
| `Exceptions.IsATransitive` | app/src/main/java/com/rodolfo/hackaton/data/remote/ApiServiceImpl.kt:57-65 | The `is`-a relation that `catch` clauses test is transitive: a subclass of a subclass of C is caught by `catch (e: C)`. |
| `Exceptions.TimeoutCancellationIsNotIO` | app/src/main/java/com/rodolfo/hackaton/data/remote/ApiServiceImpl.kt:57-64 | An operation-level timeout is never an `IOException`, so it falls through to its own clause. |
| `Exceptions.Raise` | app/src/main/java/com/rodolfo/hackaton/data/remote/ApiServiceImpl.kt:39 | `throw Exception(msg)` carries exactly `msg`. Its class is plain `Exception`, an instance of none of the four caught classes. |
| `AuthRepository.ToDomain` | app/src/main/java/com/rodolfo/hackaton/data/repository/AuthRepositoryImpl.kt:14-26 | Every token field, `expires_in` and every user field of the result equals the response's. |
| `AuthRepository.MappingIsLossless` | app/src/main/java/com/rodolfo/hackaton/data/repository/AuthRepositoryImpl.kt:14-26 | The response-to-result mapping is a bijection with the wire shape: nothing is dropped or transformed. |
| `AuthRepository.Login` | app/src/main/java/com/rodolfo/hackaton/data/repository/AuthRepositoryImpl.kt:12-13 | The service is applied to the request as given. Its exception propagates unchanged. Its response comes back as the mapped result. |
| `ApiService.PrimitiveContent` | app/src/main/java/com/rodolfo/hackaton/data/remote/ApiServiceImpl.kt:47 | `jsonPrimitive.content` exists exactly for literals and `null`, not for objects or arrays. A literal yields its content and `null` yields the text "null". |
| `ApiService.ParseErrorMessage` | app/src/main/java/com/rodolfo/hackaton/data/remote/ApiServiceImpl.kt:44-52 | Total over three cases. A readable `message` field gives its content. An object with no `message` gives "Error desconocido". Anything else gives "Error inesperado del servidor". |
| `ApiService.ErrorMessageOutcomes` | app/src/main/java/com/rodolfo/hackaton/data/remote/ApiServiceImpl.kt:44-52 | Server text reaches the message only through a readable `message` field. Otherwise the result is one of the two fixed strings, and unparseable text always gives the second. |
| `ApiService.IsSuccessStatus` | app/src/main/java/com/rodolfo/hackaton/data/remote/ApiServiceImpl.kt:35 | Success is exactly the 2xx class: a non-negative status whose quotient by 100 is 2, i.e. 200..299. |
| `ApiService.CallLogin` | app/src/main/java/com/rodolfo/hackaton/data/remote/ApiServiceImpl.kt:30-40 | A failed post propagates. A 2xx status returns the decode outcome. Any other status throws the parsed error message, or propagates a failed body read. |
| `ApiService.FirstCatch` | app/src/main/java/com/rodolfo/hackaton/data/remote/ApiServiceImpl.kt:55-65 | Yields nothing iff no clause's class matches. Otherwise yields the message of a matching clause with no matching clause before it. |
| `ApiService.SafeApiCall` | app/src/main/java/com/rodolfo/hackaton/data/remote/ApiServiceImpl.kt:54-66 | A value passes through. IO, socket-timeout, connect-timeout and timeout-cancellation exceptions all become the timeout message. Any other exception passes through unchanged. |
| `ApiService.ConnectionMessageUnreachable` | app/src/main/java/com/rodolfo/hackaton/data/remote/ApiServiceImpl.kt:57-62 | No exception class ever selects the connection message. A connect timeout is an `IOException` and gets the timeout message. |
| `ApiService.Login` | app/src/main/java/com/rodolfo/hackaton/data/remote/ApiServiceImpl.kt:28-42 | A 2xx status with a decoded body returns it. A non-2xx status with a readable body fails with exactly the parsed message, which `safeApiCall` does not rewrite. An I/O failure of the post, the body read or the decode gives the timeout message; a failure no clause catches passes through unchanged. |
| `ApiService.RejectedCredentials` | app/src/main/java/com/rodolfo/hackaton/data/remote/ApiServiceImpl.kt:38-39 | A 401 with body `{"message":"invalid credentials"}` fails with exactly "invalid credentials". |
| `ApiService.NullMessageIsTheTextNull` | app/src/main/java/com/rodolfo/hackaton/data/remote/ApiServiceImpl.kt:44-48 | A non-2xx body `{"message": null}` fails with the text "null": a JSON null is a primitive, so no fallback applies. |
| `ApiService.ServerErrorWithoutJson` | app/src/main/java/com/rodolfo/hackaton/data/remote/ApiServiceImpl.kt:44-51 | A 500 whose body is not JSON fails with "Error inesperado del servidor". |
| `SessionStore.KeyNamesDistinct` | app/src/main/java/com/rodolfo/hackaton/data/local/PreferencesManager.kt:18-28 | The nine keys are stored under nine distinct names. |
| `SessionStore.AllKeysCovered` | app/src/main/java/com/rodolfo/hackaton/data/local/PreferencesManager.kt:18-28 | The nine keys are all the keys of the store. |
| `SessionStore.GetString` | app/src/main/java/com/rodolfo/hackaton/data/local/PreferencesManager.kt:43-49 | A typed read returns the stored value iff the key is present, and null otherwise. |
| `SessionStore.Open` | app/src/main/java/com/rodolfo/hackaton/data/local/PreferencesManager.kt:31-36 | On construction both cells are null, whatever the store holds. |
| `SessionStore.Collect` | app/src/main/java/com/rodolfo/hackaton/data/local/PreferencesManager.kt:41-67 | The store is unchanged and the token cell becomes the stored token, possibly null. A user is published iff id, email and full name are all stored, with admin and points defaulting to false and 0 and the token fields as stored. Otherwise the previous user stays. |
| `SessionStore.CollectIdempotent` | app/src/main/java/com/rodolfo/hackaton/data/local/PreferencesManager.kt:41-67 | A second emission of the same store publishes nothing new. |
| `SessionStore.UserFromResult` | app/src/main/java/com/rodolfo/hackaton/data/local/PreferencesManager.kt:89-99 | The published user is a field-for-field copy of the login result, with every token field present. |
| `SessionStore.SaveLoginResult` | app/src/main/java/com/rodolfo/hackaton/data/local/PreferencesManager.kt:72-102 | A failed edit throws its own exception and publishes nothing. A committed one leaves all nine keys stored and well typed, publishes the copied user, and publishes the access token. |
| `SessionStore.SavedFieldsReadBack` | app/src/main/java/com/rodolfo/hackaton/data/local/PreferencesManager.kt:73-86 | After a save, each of the nine keys reads back exactly the result's value. |
| `SessionStore.SaveThenLoadRoundTrip` | app/src/main/java/com/rodolfo/hackaton/data/local/PreferencesManager.kt:52-63 | A collector run after a save, or a restart on the saved store, publishes exactly the user and token the save published. |
| `SessionStore.UpdateAccessToken` | app/src/main/java/com/rodolfo/hackaton/data/local/PreferencesManager.kt:115-120 | Only `access_token` changes, and every other key keeps its value. The token cell becomes the new token and the user cell is untouched. |
| `SessionStore.UpdatedTokenReachesUserAfterCollect` | app/src/main/java/com/rodolfo/hackaton/data/local/PreferencesManager.kt:115-120 | Right after an update the user still carries the old token. The next collector run gives it the new token and keeps the identity fields. |
| `SessionStore.ClearUserData` | app/src/main/java/com/rodolfo/hackaton/data/local/PreferencesManager.kt:123-129 | A committed clear leaves an empty store, no user and no token. A failed one throws. |
| `SessionStore.ClearIdempotent` | app/src/main/java/com/rodolfo/hackaton/data/local/PreferencesManager.kt:123-129 | Clearing twice equals clearing once, and the collector run after a clear changes nothing. |
| `SessionStore.GetAccessToken` | app/src/main/java/com/rodolfo/hackaton/data/local/PreferencesManager.kt:104-106 | Returns the token cell, so a token is available exactly when the session counts as logged in. |
| `SessionStore.GetCurrentUser` | app/src/main/java/com/rodolfo/hackaton/data/local/PreferencesManager.kt:132-134 | Returns the user cell as last published, without reading the store. Its values after save, update and clear are stated by `SessionStore.LoginStatusLifecycle` and `SessionStore.SaveThenLoadRoundTrip`. |
| `SessionStore.IsLoggedIn` | app/src/main/java/com/rodolfo/hackaton/data/local/PreferencesManager.kt:110-112 | True iff the token cell is non-null, so an empty-string token counts. |
| `SessionStore.LoginStatusLifecycle` | app/src/main/java/com/rodolfo/hackaton/data/local/PreferencesManager.kt:110-129 | Logged in after a save whatever the token, still logged in after a token update, and logged out with `getCurrentUser` returning null after a clear. |
| `SessionStore.EmptyStoreHasNoSession` | app/src/main/java/com/rodolfo/hackaton/data/local/PreferencesManager.kt:52-66 | Starting on an empty store publishes no user and no token. |
| `SessionStore.SaveScenario` | app/src/main/java/com/rodolfo/hackaton/data/local/PreferencesManager.kt:72-112 | Saving a zero-point result with token "abc" gives: logged in, 0 points, token "abc". |
| `LoginFlow.ErrorText` | app/src/main/java/com/rodolfo/hackaton/feature/login/ui/LoginViewModel.kt:43 | The exception's message, or "Error al iniciar sesión" when it is null. |
| `LoginFlow.Login` | app/src/main/java/com/rodolfo/hackaton/feature/login/ui/LoginViewModel.kt:26-46 | Loading is shown first, then the repository is called with the credentials, and no other step calls it again. A run has three steps when the call fails and four otherwise. Success iff the call and the save both succeed; it carries the welcome text and the returned result, only after the persist. A call failure persists nothing. Either failure shows Error with the failing exception's message, and the session is unchanged. |
| `LoginFlow.Init` | app/src/main/java/com/rodolfo/hackaton/feature/login/ui/LoginViewModel.kt:23 | A fresh view model shows Initial: not loading, no result and no error. |
| `LoginFlow.ClearError` | app/src/main/java/com/rodolfo/hackaton/feature/login/ui/LoginViewModel.kt:48-50 | From any state the next state is the one a fresh view model shows. |
| `LoginFlow.SuccessfulLoginLogsIn` | app/src/main/java/com/rodolfo/hackaton/feature/login/ui/LoginViewModel.kt:35-41 | After a successful login the session is logged in and its user is the copy of the returned result. |
| `LoginFlow.AcceptedResponseReachesSession` | app/src/main/java/com/rodolfo/hackaton/feature/login/ui/LoginViewModel.kt:35-41 | From end to end, a 2xx decoded response shows Success. The session user's identity fields and the token equal the response's. |
| `LoginFlow.RejectedLoginShowsServerMessage` | app/src/main/java/com/rodolfo/hackaton/feature/login/ui/LoginViewModel.kt:42-44 | From end to end, any non-2xx status whose body is an object with a literal `message` shows exactly that message and leaves the session unchanged. |
| `LoginFlow.TransportFailureShowsTimeoutMessage` | app/src/main/java/com/rodolfo/hackaton/data/remote/ApiServiceImpl.kt:57-58 | From end to end, an I/O-class failure of the post, of reading the error body or of decoding the success body shows the fixed timeout message, never the exception's own text. |
| `Pagination.PageCount` | app/src/main/java/com/rodolfo/hackaton/feature/purchase/ui/PurchaseViewModel.kt:330 | The ceiling of n/10: the least page count whose capacity covers n. It is zero exactly for an empty list. |
| `Pagination.PageSlice` | app/src/main/java/com/rodolfo/hackaton/feature/purchase/ui/PurchaseViewModel.kt:336-345 | At most 10 items. Element i is history[(page-1)*10 + i]. A page starting at or past n is empty; otherwise it holds min(10, n - start) items. |
| `Pagination.PagesArePrefix` | app/src/main/java/com/rodolfo/hackaton/feature/purchase/ui/PurchaseViewModel.kt:337-344 | Pages 1..k laid end to end are exactly the first min(10k, n) items. |
| `Pagination.PagesReassembleHistory` | app/src/main/java/com/rodolfo/hackaton/feature/purchase/ui/PurchaseViewModel.kt:330-344 | Concatenating pages 1..totalPages reproduces the full history. |
| `Pagination.ItemOnItsPage` | app/src/main/java/com/rodolfo/hackaton/feature/purchase/ui/PurchaseViewModel.kt:337-341 | Every item is on page index/10 + 1, at position index mod 10, and that page is within the page count. |
| `Pagination.Init` | app/src/main/java/com/rodolfo/hackaton/feature/purchase/ui/PurchaseViewModel.kt:28-32 | A new view model has an empty history and is on page 1 of 1, shows nothing, and satisfies the page invariant. |
| `Pagination.Load` | app/src/main/java/com/rodolfo/hackaton/feature/purchase/ui/PurchaseViewModel.kt:330-331 | The page count agrees with the history and the current page's slice is shown. Loading on page 1 satisfies the invariant. |
| `Pagination.NextPage` | app/src/main/java/com/rodolfo/hackaton/feature/purchase/ui/PurchaseViewModel.kt:347-352 | Below the count, it advances one page and shows that page's slice. Otherwise nothing changes. Preserves the invariant. |
| `Pagination.PreviousPage` | app/src/main/java/com/rodolfo/hackaton/feature/purchase/ui/PurchaseViewModel.kt:354-359 | Above page 1, it goes back one page and shows that page's slice. Otherwise nothing changes, and the page never drops below 1. |
| `Pagination.GoToPage` | app/src/main/java/com/rodolfo/hackaton/feature/purchase/ui/PurchaseViewModel.kt:361-366 | Takes effect, showing the page's slice, iff 1 <= page <= totalPages. Out of range, nothing changes. |
| `Pagination.PreviousUndoesNext` | app/src/main/java/com/rodolfo/hackaton/feature/purchase/ui/PurchaseViewModel.kt:347-359 | A next that moved, followed by previous, restores the state exactly. |
| `Pagination.NextUndoesPrevious` | app/src/main/java/com/rodolfo/hackaton/feature/purchase/ui/PurchaseViewModel.kt:347-359 | A previous that moved, followed by next, restores the state exactly. |
| `Pagination.GoToPageIdempotent` | app/src/main/java/com/rodolfo/hackaton/feature/purchase/ui/PurchaseViewModel.kt:361-366 | Going to the current page changes nothing, and going to a page twice equals going once. |
| `Pagination.Apply` | app/src/main/java/com/rodolfo/hackaton/feature/purchase/ui/PurchaseViewModel.kt:347-366 | Any single action keeps the page at least 1, keeps the history and the count, and preserves the invariant. |
| `Pagination.Run` | app/src/main/java/com/rodolfo/hackaton/feature/purchase/ui/PurchaseViewModel.kt:347-366 | Any sequence of actions preserves the invariant and agreement with the count, and never alters the history. |
| `Pagination.NavigationBeforeLoadStaysOnFirstPage` | app/src/main/java/com/rodolfo/hackaton/feature/purchase/ui/PurchaseViewModel.kt:28-32 | Before the load, with a count of 1, no action moves the page off 1. |
| `Pagination.ReachableStatesAreValid` | app/src/main/java/com/rodolfo/hackaton/feature/purchase/ui/PurchaseViewModel.kt:328-366 | In every reachable state, 1 <= currentPage <= max(1, totalPages) and the current page's slice is shown. |
| `PurchaseHistory.FindById` | app/src/main/java/com/rodolfo/hackaton/feature/purchase/ui/PurchaseViewModel.kt:55 | Returns nothing iff no item has the id. Otherwise returns an item with that id, with no earlier item carrying it. |
| `PurchaseHistory.GetPurchaseDetail` | app/src/main/java/com/rodolfo/hackaton/feature/purchase/ui/PurchaseViewModel.kt:53-58 | Selects from the whole history, not only the page shown: the first item with the id, or null iff none exists. Pagination is untouched. |
| `PurchaseHistory.DetailSelectsTheItem` | app/src/main/java/com/rodolfo/hackaton/feature/purchase/ui/PurchaseViewModel.kt:55-56 | With unique ids, selecting an item's id selects that very item, whatever page it is on. |
| `PurchaseHistory.FifteenPurchasesMakeTwoPages` | app/src/main/java/com/rodolfo/hackaton/feature/purchase/ui/PurchaseViewModel.kt:330-331 | Fifteen purchases give 2 pages: the first 10 items, then the last 5. Next and go-to-page 3 stop there. |
| `SwapHistory.SampleHistoryPages` | app/src/main/java/com/rodolfo/hackaton/feature/swap/ui/SwapViewModel.kt:56-77 | The 15 sample swaps give 2 pages, with swaps 1-10 and then 11-15. Next stops on page 2 and previous returns to page 1. |
| `SwapHistory.SwapPagesReassembleHistory` | app/src/main/java/com/rodolfo/hackaton/feature/swap/ui/SwapViewModel.kt:76-90 | For any swap history, the loaded pages laid end to end are the whole history. |
| `SwapHistory.SwapNavigationStaysInRange` | app/src/main/java/com/rodolfo/hackaton/feature/swap/ui/SwapViewModel.kt:93-112 | For any swap history and any actions, the page stays in [1, max(1, pages)] and shows its slice. |
| `RecycleLevel.CalculateRecycleLevel` | app/src/main/java/com/rodolfo/hackaton/feature/score/ui/ScoreViewModel.kt:132-180 | The level is one of the five tiers. A non-negative total lies in the level's interval, from its threshold up to the next level's points. A negative total is Eco Beginner. |
| `RecycleLevel.LevelIsTheCoveringTier` | app/src/main/java/com/rodolfo/hackaton/feature/score/ui/ScoreViewModel.kt:133-179 | The tiers' intervals do not overlap: any tier covering a non-negative total is the level. |
| `RecycleLevel.LevelMonotone` | app/src/main/java/com/rodolfo/hackaton/feature/score/ui/ScoreViewModel.kt:133-179 | More points never give a lower threshold. |
| `RecycleLevel.NextLevelChains` | app/src/main/java/com/rodolfo/hackaton/feature/score/ui/ScoreViewModel.kt:134-178 | A level's next-level points are exactly where a different, higher tier starts. No total below them reaches a higher threshold. |
| `RecycleLevel.LevelForUser` | app/src/main/java/com/rodolfo/hackaton/feature/score/ui/ScoreViewModel.kt:44 | A missing user counts as 0 points, which is Eco Beginner. A present user's level covers their total, or is Eco Beginner when the total is negative. |
| `RecycleLevel.SampleLevels` | app/src/main/java/com/rodolfo/hackaton/feature/score/ui/ScoreViewModel.kt:134-178 | 1850 is Eco Expert, 2000 is Eco Master with no next level, 499 is Eco Beginner, and -50 is treated as 0. |

## Behaviour worth knowing

These follow from the code as written:

- **Logged-in check.** `isLoggedIn` tests only that the token cell is non-null, so an empty-string token counts as logged in (PreferencesManager.kt:111, `SessionStore.IsLoggedIn`).
- **Connection failures.** Ktor's connect timeout is an `IOException`, and the `IOException` clause comes first, so every transport failure gets the timeout message and the connection message is never produced (`ApiService.ConnectionMessageUnreachable`).
- **Decode failures on a 2xx response.** They are not `IOException`s, so `safeApiCall` passes them through with their own text (`ApiService.SafeApiCall`, last ensures).
- **Error-body fallbacks.** There are two: "Error desconocido" for an object without `message`, and "Error inesperado del servidor" for anything else. A body `{"message": null}` yields the text "null" (`ApiService.NullMessageIsTheTextNull`).
- **Missing identity keys on load.** With the id, email or full name missing, the collector has no else branch, so the previously published user stays (`SessionStore.Collect`).
- **Clear error.** `clearError` sets Initial from any state, not only from Error (`LoginFlow.ClearError`).

## Left out

- Compose screens, navigation, the bottom bar and colours: rendering only. This includes the enum-to-label helpers inside the screens.
- The score screen's float progress bar and all money formatting, because they are floating point. A purchase's amount is a `real` and is never computed on.
- The HTTP client configuration, its log scrubbing and the dependency-injection module, because they are library configuration.
- The HTTP engine, Ktor body decoding, request serialisation and the JSON parser. These are foreign calls; their outcomes are inputs.
- Concurrency. Coroutines, dispatchers and the race between the store collector and a concurrent save are not modelled. The collector is a step applied explicitly. Overlapping login submissions are not modelled; a submit ignores the state it starts from.
- Read failures of the store's data stream, which are uncaught in the collector's coroutine and crash the app. Only edit failures are modelled.
- The view models' `isLoading` flags and their copies of the session user, which are display state.
- The static mock tables (home screen, statistics, recent activities, purchase records) and the home screen's console logging. Their sizes appear only as concrete examples.
- Kotlin 32-bit `Int` wrap-around. No arithmetic on ids or points is done. The page-start product stays far below 2^31 for any list the app can hold.
- The exception class hierarchy belongs to the JVM, okio, Ktor and coroutine libraries, which are not part of this model. Their subclass facts are written out in `Exceptions.Parent`.
- "Called exactly once" for the service inside the repository: in a pure model this shows as a single application of the function to the request. For the repository itself, the login run's step trace states it.

=== FILE: api_service.dfy ===
/**
 * The API service's login call: one POST, classification of the status line, extraction
 * of a server error message from a non-2xx body, and the translation of transport
 * exceptions into fixed user-facing messages.
 *
 * The HTTP engine, the body decoder and the JSON parser are foreign code: their outcomes
 * are inputs here (an `HttpResponse` record whose decode and read outcomes are given, and a
 * `parse` function from text to an optional JSON tree, `None` meaning the parser threw).
 */
module ApiService {
  import opened Wrappers
  import opened Exceptions
  import opened LoginModel

  const TimeoutMessage: string :=
    "Tiempo de espera agotado. Por favor verifique su conexión a Internet o contacte al soporte técnico"
  const ConnectionMessage: string :=
    "No se pudo establecer conexión. Revise su red o contacte con el soporte técnico."
  const UnknownErrorMessage: string := "Error desconocido"
  const UnexpectedServerMessage: string := "Error inesperado del servidor"

  /** A parsed JSON tree; `JsonLiteral` holds the content of a string, number or boolean. */
  datatype JsonElement =
    | JsonObject(fields: map<string, JsonElement>)
    | JsonArray(elements: seq<JsonElement>)
    | JsonLiteral(content: string)
    | JsonNull

  /**
   * `element.jsonPrimitive.content`. `JsonNull` is itself a primitive whose content is
   * "null"; objects and arrays are not primitives (`None`: the accessor throws).
   */
  function PrimitiveContent(element: JsonElement): (content: Option<string>)
    ensures content.Some? <==> !element.JsonObject? && !element.JsonArray?
    ensures element.JsonLiteral? ==> content == Some(element.content)
    ensures element.JsonNull? ==> content == Some("null")
  {
    match element
    case JsonLiteral(c) => Some(c)
    case JsonNull => Some("null")
    case _ => None
  }

  /** The body is a JSON object whose `message` field is a primitive. */
  predicate HasReadableMessage(parsed: Option<JsonElement>)
  {
    && parsed.Some? && parsed.value.JsonObject?
    && "message" in parsed.value.fields
    && PrimitiveContent(parsed.value.fields["message"]).Some?
  }

  /** The body is a JSON object with no `message` field at all. */
  predicate LacksMessage(parsed: Option<JsonElement>)
  {
    parsed.Some? && parsed.value.JsonObject? && "message" !in parsed.value.fields
  }

  /**
   * `parseErrorMessage(json)`: total, never throws; the readable `message` field, or
   * "Error desconocido" when the object has none, or "Error inesperado del servidor"
   * when the text is not JSON, is not an object, or its `message` is not a primitive.
   */
  function ParseErrorMessage(json: string, parse: string -> Option<JsonElement>): (message: string)
    ensures HasReadableMessage(parse(json)) ==>
              message == PrimitiveContent(parse(json).value.fields["message"]).value
    ensures LacksMessage(parse(json)) ==> message == UnknownErrorMessage
    ensures !HasReadableMessage(parse(json)) && !LacksMessage(parse(json)) ==>
              message == UnexpectedServerMessage
  {
    match parse(json)
    case None => UnexpectedServerMessage
    case Some(element) =>
      match element
      case JsonObject(fields) =>
        if "message" in fields then
          match PrimitiveContent(fields["message"])
          case Some(content) => content
          case None => UnexpectedServerMessage
        else UnknownErrorMessage
      case _ => UnexpectedServerMessage
  }

  /** Only a readable `message` field can put server text into the result; otherwise it is one of the two fixed strings. */
  lemma ErrorMessageOutcomes(json: string, parse: string -> Option<JsonElement>)
    ensures var m := ParseErrorMessage(json, parse);
            HasReadableMessage(parse(json)) || m == UnknownErrorMessage || m == UnexpectedServerMessage
    ensures parse(json).None? ==> ParseErrorMessage(json, parse) == UnexpectedServerMessage
  {
  }

  /** The 2xx class of section 15.3 of RFC 9110: a non-negative status whose quotient by 100 is 2, i.e. 200..299. */
  function IsSuccessStatus(status: int): (ok: bool)
    ensures ok <==> status >= 0 && status / 100 == 2
  {
    200 <= status <= 299
  }

  /** What the engine hands back: the status, the decode outcome of `body()`, the read outcome of `bodyAsText()`. */
  datatype HttpResponse = HttpResponse(status: int, body: Result<LoginResponse>, text: Result<string>)

  /** The block passed to `safeApiCall`: post, then decode on 2xx or throw the parsed error message. */
  function CallLogin(post: Result<HttpResponse>, parse: string -> Option<JsonElement>): (r: Result<LoginResponse>)
    ensures post.Err? ==> r == Err(post.error)
    ensures post.Ok? && IsSuccessStatus(post.value.status) ==> r == post.value.body
    ensures post.Ok? && !IsSuccessStatus(post.value.status) && post.value.text.Ok? ==>
              r == Err(Raise(ParseErrorMessage(post.value.text.value, parse)))
    ensures post.Ok? && !IsSuccessStatus(post.value.status) && post.value.text.Err? ==>
              r == Err(post.value.text.error)
  {
    match post
    case Err(e) => Err(e)
    case Ok(response) =>
      if IsSuccessStatus(response.status) then response.body
      else
        match response.text
        case Ok(text) => Err(Raise(ParseErrorMessage(text, parse)))
        case Err(e) => Err(e)
  }

  /** One `catch (e: caught) { throw Exception(message) }` clause. */
  datatype Clause = Clause(caught: ExceptionClass, message: string)

  /** The catch clauses of `safeApiCall`, in source order. */
  const Clauses: seq<Clause> := [
    Clause(IOException, TimeoutMessage),
    Clause(SocketTimeoutException, TimeoutMessage),
    Clause(ConnectTimeoutException, ConnectionMessage),
    Clause(TimeoutCancellationException, TimeoutMessage)
  ]

  /** The message of the first clause whose class `cls` is an instance of, if any. */
  function FirstCatch(cls: ExceptionClass, clauses: seq<Clause>): (m: Option<string>)
    ensures m.None? <==> forall i :: 0 <= i < |clauses| ==> !IsA(cls, clauses[i].caught)
    ensures m.Some? ==>
              (exists i :: 0 <= i < |clauses| && IsA(cls, clauses[i].caught) && m.value == clauses[i].message
                 && (forall j :: 0 <= j < i ==> !IsA(cls, clauses[j].caught)))
  {
    if clauses == [] then None
    else if IsA(cls, clauses[0].caught) then Some(clauses[0].message)
    else
      var rest := FirstCatch(cls, clauses[1..]);
      assert forall i :: 1 <= i < |clauses| ==> clauses[i] == clauses[1..][i - 1];
      rest
  }

  /** `safeApiCall { ... }`: a value passes; a caught exception becomes a plain one with the clause's message; others pass unchanged. */
  function SafeApiCall<T>(outcome: Result<T>): (r: Result<T>)
    ensures outcome.Ok? ==> r == outcome
    ensures outcome.Err? && IsA(outcome.error.cls, IOException) ==> r == Err(Raise(TimeoutMessage))
    ensures outcome.Err? && IsA(outcome.error.cls, SocketTimeoutException) ==> r == Err(Raise(TimeoutMessage))
    ensures outcome.Err? && IsA(outcome.error.cls, TimeoutCancellationException) ==> r == Err(Raise(TimeoutMessage))
    ensures outcome.Err? && IsA(outcome.error.cls, ConnectTimeoutException) ==> r == Err(Raise(TimeoutMessage))
    ensures outcome.Err? && (forall i :: 0 <= i < |Clauses| ==> !IsA(outcome.error.cls, Clauses[i].caught)) ==>
              r == outcome
  {
    match outcome
    case Ok(_) => outcome
    case Err(e) =>
      if IsA(e.cls, ConnectTimeoutException) then
        IsATransitive(e.cls, ConnectTimeoutException, IOException);
        ClauseFor(e)
      else if IsA(e.cls, SocketTimeoutException) then
        IsATransitive(e.cls, SocketTimeoutException, InterruptedIOException);
        IsATransitive(e.cls, InterruptedIOException, IOException);
        ClauseFor(e)
      else if IsA(e.cls, TimeoutCancellationException) then
        TimeoutCancellationIsNotIO(e.cls);
        assert Clauses[3].caught == TimeoutCancellationException;
        assert !IsA(e.cls, Clauses[0].caught) && !IsA(e.cls, Clauses[1].caught) && !IsA(e.cls, Clauses[2].caught);
        ClauseFor(e)
      else ClauseFor(e)
  }

  /** Applies the first matching clause to a thrown exception. */
  function ClauseFor<T>(e: Exception): Result<T>
  {
    match FirstCatch(e.cls, Clauses)
    case Some(message) => Err(Raise(message))
    case None => Err(e)
  }

  /**
   * The connect-timeout clause is unreachable: every connect timeout is an `IOException`,
   * which the first clause already catches, so the connection message is never produced.
   */
  lemma {:induction false} ConnectionMessageUnreachable(cls: ExceptionClass)
    ensures FirstCatch(cls, Clauses) != Some(ConnectionMessage)
    ensures IsA(cls, ConnectTimeoutException) ==> FirstCatch(cls, Clauses) == Some(TimeoutMessage)
  {
    if IsA(cls, ConnectTimeoutException) {
      IsATransitive(cls, ConnectTimeoutException, IOException);
    }
    assert TimeoutMessage != ConnectionMessage;
  }

  /** `login(request)`: the guarded call. The request body itself is serialised by the engine. */
  function Login(post: Result<HttpResponse>, parse: string -> Option<JsonElement>): (r: Result<LoginResponse>)
    ensures post.Ok? && IsSuccessStatus(post.value.status) && post.value.body.Ok? ==>
              r == post.value.body
    ensures post.Ok? && !IsSuccessStatus(post.value.status) && post.value.text.Ok? ==>
              r == Err(Raise(ParseErrorMessage(post.value.text.value, parse)))
    ensures r.Err? ==>
              (r.error.message.Some? || (CallLogin(post, parse).Err? && r.error == CallLogin(post, parse).error))
    ensures CallLogin(post, parse).Err? && IsA(CallLogin(post, parse).error.cls, IOException) ==>
              r == Err(Raise(TimeoutMessage))
    ensures CallLogin(post, parse).Err?
            && (forall i :: 0 <= i < |Clauses| ==> !IsA(CallLogin(post, parse).error.cls, Clauses[i].caught)) ==>
              r == CallLogin(post, parse)
  {
    SafeApiCall(CallLogin(post, parse))
  }

  /** A 401 whose body is `{"message":"invalid credentials"}` fails with exactly that message. */
  lemma RejectedCredentials(body: string, parse: string -> Option<JsonElement>)
    requires parse(body) == Some(JsonObject(map["message" := JsonLiteral("invalid credentials")]))
    ensures Login(Ok(HttpResponse(401, Err(Raise("not decoded")), Ok(body))), parse)
            == Err(Raise("invalid credentials"))
  {
  }

  /** A non-2xx body `{"message": null}` fails with the literal text "null", not a fallback. */
  lemma NullMessageIsTheTextNull(status: int, body: string, parse: string -> Option<JsonElement>)
    requires !IsSuccessStatus(status)
    requires parse(body) == Some(JsonObject(map["message" := JsonNull]))
    ensures Login(Ok(HttpResponse(status, Err(Raise("not decoded")), Ok(body))), parse) == Err(Raise("null"))
  {
  }

  /** A 500 whose body is not JSON fails with the fixed fallback message. */
  lemma ServerErrorWithoutJson(body: string, parse: string -> Option<JsonElement>)
    requires parse(body).None?
    ensures Login(Ok(HttpResponse(500, Err(Raise("not decoded")), Ok(body))), parse)
            == Err(Raise(UnexpectedServerMessage))
  {
  }
}

=== FILE: auth_repository.dfy ===
/**
 * The authentication repository: one call to the API service, whose response is copied
 * field for field into the domain result. Any exception from the service propagates
 * unchanged, since the repository has no handler.
 */
module AuthRepository {
  import opened Exceptions
  import opened LoginModel

  /** The response-to-result copy made after a successful call. */
  function ToDomain(response: LoginResponse): (result: LoginResult)
    ensures result.access_token == response.access_token
    ensures result.refresh_token == response.refresh_token
    ensures result.token_type == response.token_type
    ensures result.expires_in == response.expires_in
    ensures result.user.id == response.user.id
    ensures result.user.email == response.user.email
    ensures result.user.full_name == response.user.full_name
    ensures result.user.is_admin == response.user.is_admin
    ensures result.user.total_points == response.user.total_points
  {
    LoginResult(
      response.access_token,
      response.refresh_token,
      response.token_type,
      response.expires_in,
      UserResult(
        response.user.id,
        response.user.email,
        response.user.full_name,
        response.user.is_admin,
        response.user.total_points))
  }

  /** The wire shape of a domain result; the reference against which `ToDomain` loses nothing. */
  function ToWire(result: LoginResult): LoginResponse
  {
    LoginResponse(
      result.access_token,
      result.refresh_token,
      result.token_type,
      result.expires_in,
      UserResponse(
        result.user.id,
        result.user.email,
        result.user.full_name,
        result.user.is_admin,
        result.user.total_points))
  }

  /** The mapping is a bijection: nothing is dropped or transformed in either direction. */
  lemma MappingIsLossless(response: LoginResponse, result: LoginResult)
    ensures ToWire(ToDomain(response)) == response
    ensures ToDomain(ToWire(result)) == result
    ensures ToDomain(response) == result <==> response == ToWire(result)
  {
  }

  /**
   * `login(request)`: the service is applied to the request exactly as given, once;
   * a thrown exception is passed on untouched, a response is mapped.
   */
  function Login(request: LoginRequest, service: LoginRequest -> Result<LoginResponse>): (r: Result<LoginResult>)
    ensures r.Err? <==> service(request).Err?
    ensures r.Err? ==> r.error == service(request).error
    ensures r.Ok? ==> ToWire(r.value) == service(request).value
  {
    match service(request)
    case Ok(response) => Ok(ToDomain(response))
    case Err(e) => Err(e)
  }
}

=== FILE: exceptions.dfy ===
/**
 * Exceptions raised and caught on the login path, with the class hierarchy made explicit
 * so that Kotlin's first-matching `catch` clauses can be modelled exactly.
 *
 * The hierarchy below is the JVM one the app runs against: Ktor's socket timeout is a
 * subclass of `java.net.SocketTimeoutException` (an `InterruptedIOException`, hence an
 * `IOException`), Ktor's `ConnectTimeoutException` is a subclass of
 * `java.net.ConnectException` and so, through `SocketException`, of `IOException`, okio's
 * `IOException` is `java.io.IOException`, and coroutines' `TimeoutCancellationException`
 * is a `CancellationException`, i.e. an `IllegalStateException`. Intermediate classes that
 * no `catch` on the login path names (Ktor's own socket-timeout subclass, `ConnectException`,
 * `SocketException`) are skipped in `Parent`; skipping them changes no `IsA` answer for the
 * caught classes.
 */
module Exceptions {
  import opened Wrappers

  datatype ExceptionClass =
    | BaseException                 // kotlin.Exception
    | IOException
    | InterruptedIOException
    | SocketTimeoutException
    | ConnectTimeoutException
    | RuntimeException
    | IllegalStateException
    | IllegalArgumentException
    | CancellationException
    | TimeoutCancellationException
    | Subclass(name: string, parent: ExceptionClass)   // any other exception class

  /** Distance from `BaseException` in the class tree; the parent is always one step closer. */
  function Depth(c: ExceptionClass): nat
  {
    match c
    case BaseException => 0
    case IOException => 1
    case RuntimeException => 1
    case InterruptedIOException => 2
    case ConnectTimeoutException => 2
    case IllegalStateException => 2
    case IllegalArgumentException => 2
    case SocketTimeoutException => 3
    case CancellationException => 3
    case TimeoutCancellationException => 4
    case Subclass(_, p) => Depth(p) + 1
  }

  /** The direct superclass; `BaseException` is the root of the modelled tree. */
  function Parent(c: ExceptionClass): (p: Option<ExceptionClass>)
    ensures p.None? <==> c == BaseException
    ensures p.Some? ==> Depth(p.value) + 1 == Depth(c)
  {
    match c
    case BaseException => None
    case IOException => Some(BaseException)
    case RuntimeException => Some(BaseException)
    case InterruptedIOException => Some(IOException)
    case ConnectTimeoutException => Some(IOException)
    case IllegalStateException => Some(RuntimeException)
    case IllegalArgumentException => Some(RuntimeException)
    case SocketTimeoutException => Some(InterruptedIOException)
    case CancellationException => Some(IllegalStateException)
    case TimeoutCancellationException => Some(CancellationException)
    case Subclass(_, p) => Some(p)
  }

  /** The class itself and all its superclasses. */
  function Ancestors(c: ExceptionClass): (s: set<ExceptionClass>)
    ensures c in s && BaseException in s
    ensures forall d :: d in s ==> Depth(d) <= Depth(c)
    decreases Depth(c)
  {
    match Parent(c)
    case None => {c}
    case Some(p) => {c} + Ancestors(p)
  }

  /** Kotlin's `is`: `c` is `d` or a subclass of it. */
  predicate IsA(c: ExceptionClass, d: ExceptionClass)
  {
    d in Ancestors(c)
  }

  /** Every ancestor of an ancestor is an ancestor. */
  lemma {:induction false} AncestorsClosed(a: ExceptionClass, b: ExceptionClass)
    requires IsA(a, b)
    ensures Ancestors(b) <= Ancestors(a)
    decreases Depth(a)
  {
    if a != b {
      var p := Parent(a).value;
      assert b in Ancestors(p);
      AncestorsClosed(p, b);
    }
  }

  /** The subclass relation is transitive. */
  lemma IsATransitive(a: ExceptionClass, b: ExceptionClass, c: ExceptionClass)
    requires IsA(a, b) && IsA(b, c)
    ensures IsA(a, c)
  {
    AncestorsClosed(a, b);
  }

  /** Two ancestors at the same depth are the same class: each class has a single chain of superclasses. */
  lemma {:induction false} AncestorAtDepthUnique(c: ExceptionClass, a: ExceptionClass, b: ExceptionClass)
    requires IsA(c, a) && IsA(c, b) && Depth(a) == Depth(b)
    ensures a == b
    decreases Depth(c)
  {
    if a != c && b != c {
      var p := Parent(c).value;
      AncestorAtDepthUnique(p, a, b);
    }
  }

  /** An operation-level timeout is not an I/O failure: the two branches of the tree never meet. */
  lemma TimeoutCancellationIsNotIO(c: ExceptionClass)
    requires IsA(c, TimeoutCancellationException)
    ensures !IsA(c, IOException)
  {
    IsATransitive(c, TimeoutCancellationException, RuntimeException);
    if IsA(c, IOException) {
      AncestorAtDepthUnique(c, IOException, RuntimeException);
    }
  }

  /** A thrown Kotlin exception: its class and its (nullable) message. */
  datatype Exception = Exception(cls: ExceptionClass, message: Option<string>)

  /** `throw Exception(message)`. */
  function Raise(message: string): (e: Exception)
    ensures e.message == Some(message)
    ensures forall d :: IsA(e.cls, d) ==> d == BaseException
  {
    Exception(BaseException, Some(message))
  }

  /** Either a value or the exception that was thrown instead of returning it. */
  datatype Result<+T> = Ok(value: T) | Err(error: Exception)
}

=== FILE: login_model.dfy ===
/**
 * The records exchanged on login: the request body, the wire response (the DTO) and
 * the domain result the rest of the app works with. Kotlin `Int` fields are `int`;
 * no arithmetic is done on them, so 32-bit width plays no part.
 */
module LoginModel {

  datatype LoginRequest = LoginRequest(email: string, password: string)

  datatype UserResponse = UserResponse(
    id: int,
    email: string,
    full_name: string,
    is_admin: bool,
    total_points: int)

  datatype LoginResponse = LoginResponse(
    access_token: string,
    refresh_token: string,
    token_type: string,
    expires_in: int,
    user: UserResponse)

  datatype UserResult = UserResult(
    id: int,
    email: string,
    full_name: string,
    is_admin: bool,
    total_points: int)

  datatype LoginResult = LoginResult(
    access_token: string,
    refresh_token: string,
    token_type: string,
    expires_in: int,
    user: UserResult)
}

=== FILE: login_view_model.dfy ===
/**
 * The login screen's state machine: Initial, Loading, Success and Error. A submit shows
 * Loading, asks the repository for a result, persists it in the session store and shows
 * Success; any exception along the way ends in Error. The repository is a function from
 * the request to its outcome, and the store edit's outcome is an input.
 *
 * A run is recorded as the sequence of observable steps it performs, so that the order
 * of effects (state shown, repository called, result persisted) can be stated.
 */
module LoginFlow {
  import opened Wrappers
  import opened Exceptions
  import opened LoginModel
  import SessionStore
  import AuthRepository
  import ApiService

  const DefaultErrorMessage: string := "Error al iniciar sesión"
  const WelcomePrefix: string := "Bienvenido "

  datatype LoginUiState =
    | Initial
    | Loading
    | Success(message: string, loginResult: LoginResult)
    | Error(message: string)

  /** The state a freshly built view model shows: neither busy, nor a result, nor an error. */
  function Init(): (state: LoginUiState)
    ensures state.Initial?
  {
    Initial
  }

  datatype Step =
    | Show(state: LoginUiState)
    | CallRepository(request: LoginRequest)
    | Persist(result: LoginResult)

  datatype LoginRun = LoginRun(steps: seq<Step>, session: SessionStore.Session, state: LoginUiState)

  /** `e.message ?: "Error al iniciar sesión"`. */
  function ErrorText(e: Exception): (text: string)
    ensures e.message.Some? ==> text == e.message.value
    ensures e.message.None? ==> text == DefaultErrorMessage
  {
    e.message.GetOr(DefaultErrorMessage)
  }

  /**
   * `login(email, password)`. Whatever the state before, Loading is shown first and the
   * repository is called once with the credentials as given. Success is shown only after
   * the result was persisted; a repository failure persists nothing.
   */
  function Login(
    session: SessionStore.Session,
    email: string,
    password: string,
    repository: LoginRequest -> Result<LoginResult>,
    edit: SessionStore.Edit): (run: LoginRun)
    ensures |run.steps| >= 3
    ensures run.steps[0] == Show(Loading)
    ensures run.steps[1] == CallRepository(LoginRequest(email, password))
    ensures forall i :: 0 <= i < |run.steps| && i != 1 ==> !run.steps[i].CallRepository?
    ensures |run.steps| == if repository(LoginRequest(email, password)).Err? then 3 else 4
    ensures run.steps[|run.steps| - 1] == Show(run.state)
    ensures repository(LoginRequest(email, password)).Ok? ==>
              run.steps[2] == Persist(repository(LoginRequest(email, password)).value)
    ensures run.state.Success? <==> repository(LoginRequest(email, password)).Ok? && edit.Committed?
    ensures run.state.Success? ==>
              var result := repository(LoginRequest(email, password)).value;
              && run.state.loginResult == result
              && run.state.message == WelcomePrefix + result.user.full_name
              && run.steps[2] == Persist(result)
              && run.session == SessionStore.SaveLoginResult(session, result, edit).value
    ensures repository(LoginRequest(email, password)).Err? ==>
              && run.state == Error(ErrorText(repository(LoginRequest(email, password)).error))
              && (forall i :: 0 <= i < |run.steps| ==> !run.steps[i].Persist?)
              && run.session == session
    ensures repository(LoginRequest(email, password)).Ok? && edit.Failed? ==>
              && run.state == Error(ErrorText(edit.error))
              && run.session == session
  {
    var request := LoginRequest(email, password);
    var started := [Show(Loading), CallRepository(request)];
    match repository(request)
    case Err(e) =>
      LoginRun(started + [Show(Error(ErrorText(e)))], session, Error(ErrorText(e)))
    case Ok(result) =>
      match SessionStore.SaveLoginResult(session, result, edit)
      case Err(e) =>
        LoginRun(started + [Persist(result), Show(Error(ErrorText(e)))], session, Error(ErrorText(e)))
      case Ok(saved) =>
        var success := Success(WelcomePrefix + result.user.full_name, result);
        LoginRun(started + [Persist(result), Show(success)], saved, success)
  }

  /** `clearError`: back to the view model's initial state from any state. */
  function ClearError(state: LoginUiState): (next: LoginUiState)
    ensures next == Init()
  {
    Initial
  }

  /** A successful login leaves the session logged in with the user the repository returned. */
  lemma SuccessfulLoginLogsIn(
    session: SessionStore.Session, email: string, password: string,
    repository: LoginRequest -> Result<LoginResult>)
    requires repository(LoginRequest(email, password)).Ok?
    ensures var run := Login(session, email, password, repository, SessionStore.Committed);
            var result := repository(LoginRequest(email, password)).value;
            && run.state.Success?
            && SessionStore.IsLoggedIn(run.session)
            && SessionStore.GetCurrentUser(run.session) == Some(SessionStore.UserFromResult(result))
  {
  }

  /**
   * End to end through repository and API service: a 2xx response with a decodable body
   * shows Success, and the session user's identity fields equal the response's exactly.
   */
  lemma AcceptedResponseReachesSession(
    session: SessionStore.Session, email: string, password: string,
    response: ApiService.HttpResponse, parse: string -> Option<ApiService.JsonElement>)
    requires ApiService.IsSuccessStatus(response.status) && response.body.Ok?
    ensures var service := (req: LoginRequest) => ApiService.Login(Ok(response), parse);
            var repository := (req: LoginRequest) => AuthRepository.Login(req, service);
            var run := Login(session, email, password, repository, SessionStore.Committed);
            var wire := response.body.value;
            var user := SessionStore.GetCurrentUser(run.session).value;
            && run.state.Success?
            && user.id == wire.user.id && user.email == wire.user.email
            && user.fullName == wire.user.full_name && user.isAdmin == wire.user.is_admin
            && user.totalPoints == wire.user.total_points
            && SessionStore.GetAccessToken(run.session) == Some(wire.access_token)
  {
  }

  /**
   * End to end: any non-2xx status whose body is an object with a literal `message` shows
   * exactly that message and leaves the session as it was.
   */
  lemma RejectedLoginShowsServerMessage(
    session: SessionStore.Session, email: string, password: string,
    status: int, body: string, m: string,
    parse: string -> Option<ApiService.JsonElement>, edit: SessionStore.Edit)
    requires !ApiService.IsSuccessStatus(status)
    requires parse(body) == Some(ApiService.JsonObject(map["message" := ApiService.JsonLiteral(m)]))
    ensures var post := Ok(ApiService.HttpResponse(status, Err(Raise("not decoded")), Ok(body)));
            var service := (req: LoginRequest) => ApiService.Login(post, parse);
            var repository := (req: LoginRequest) => AuthRepository.Login(req, service);
            var run := Login(session, email, password, repository, edit);
            && run.state == Error(m)
            && run.session == session
  {
  }

  /**
   * An I/O failure anywhere in the guarded call (the post, reading the error body, or
   * decoding the success body) shows the fixed timeout message, never the exception's own text.
   */
  lemma TransportFailureShowsTimeoutMessage(
    session: SessionStore.Session, email: string, password: string,
    post: Result<ApiService.HttpResponse>, parse: string -> Option<ApiService.JsonElement>,
    edit: SessionStore.Edit)
    requires ApiService.CallLogin(post, parse).Err?
    requires IsA(ApiService.CallLogin(post, parse).error.cls, IOException)
    ensures var service := (req: LoginRequest) => ApiService.Login(post, parse);
            var repository := (req: LoginRequest) => AuthRepository.Login(req, service);
            Login(session, email, password, repository, edit).state == Error(ApiService.TimeoutMessage)
  {
  }
}

=== FILE: pagination.dfy ===
/**
 * History pagination, shared by the purchase and swap history view models: the full
 * history is shown ten items at a time; the current page moves by next, previous and
 * go-to-page, each guarded so that the page stays within range.
 *
 * The page count is `ceil(n / 10.0)` in the app; for list sizes below 2^31 that double
 * computation is exact, so it is modelled as the integer ceiling `(n + 9) / 10`.
 */
module Pagination {

  const ItemsPerPage: nat := 10

  function Min(a: int, b: int): int { if a <= b then a else b }
  function Max(a: int, b: int): int { if a <= b then b else a }

  /** The number of pages holding `n` items: the least count whose capacity covers `n`. */
  function PageCount(n: nat): (pages: nat)
    ensures pages * ItemsPerPage >= n
    ensures pages == 0 || (pages - 1) * ItemsPerPage < n
    ensures pages == 0 <==> n == 0
  {
    (n + ItemsPerPage - 1) / ItemsPerPage
  }

  /** Index of the first item of a page. */
  function PageStart(page: int): int
  {
    (page - 1) * ItemsPerPage
  }

  /**
   * The items a page shows: those at indices [start, min(start + 10, n)) in their original
   * order, or nothing when the page starts at or past the end.
   */
  function PageSlice<T>(history: seq<T>, page: int): (shown: seq<T>)
    requires page >= 1
    ensures |shown| <= ItemsPerPage
    ensures PageStart(page) >= |history| ==> shown == []
    ensures PageStart(page) < |history| ==> |shown| == Min(ItemsPerPage, |history| - PageStart(page))
    ensures forall i :: 0 <= i < |shown| ==> shown[i] == history[PageStart(page) + i]
  {
    var start := PageStart(page);
    var end := Min(start + ItemsPerPage, |history|);
    if start < |history| then history[start..end] else []
  }

  /** The pages 1..k laid end to end. */
  function Pages<T>(history: seq<T>, k: nat): seq<T>
  {
    if k == 0 then [] else Pages(history, k - 1) + PageSlice(history, k)
  }

  /** The first k pages are exactly the first min(10k, n) items. */
  lemma {:induction false} PagesArePrefix<T>(history: seq<T>, k: nat)
    ensures Pages(history, k) == history[..Min(k * ItemsPerPage, |history|)]
  {
    if k > 0 {
      PagesArePrefix(history, k - 1);
      var before := Min((k - 1) * ItemsPerPage, |history|);
      var after := Min(k * ItemsPerPage, |history|);
      if PageStart(k) < |history| {
        assert PageSlice(history, k) == history[before..after];
      } else {
        assert before == after;
      }
      assert history[..before] + history[before..after] == history[..after];
    }
  }

  /** Concatenating every page reproduces the full history, in order and without loss. */
  lemma PagesReassembleHistory<T>(history: seq<T>)
    ensures Pages(history, PageCount(|history|)) == history
  {
    PagesArePrefix(history, PageCount(|history|));
  }

  /** Every item is on the page its index falls into, at offset index mod 10. */
  lemma ItemOnItsPage<T>(history: seq<T>, index: nat)
    requires index < |history|
    ensures var page := index / ItemsPerPage + 1;
            && 1 <= page <= PageCount(|history|)
            && PageSlice(history, page)[index % ItemsPerPage] == history[index]
  {
  }

  /** The pagination fields of a history view model; `shown` is the list on screen. */
  datatype Pager<T> = Pager(history: seq<T>, currentPage: int, totalPages: int, shown: seq<T>)

  /** The current page is within range and the screen shows its slice. */
  ghost predicate Valid<T>(p: Pager<T>)
  {
    && 1 <= p.currentPage <= Max(1, p.totalPages)
    && p.shown == PageSlice(p.history, p.currentPage)
  }

  /** The page count agrees with the history. */
  ghost predicate Loaded<T>(p: Pager<T>)
  {
    p.totalPages == PageCount(|p.history|)
  }

  /** A freshly built view model: page 1 of 1, nothing loaded yet. */
  function Init<T>(): (p: Pager<T>)
    ensures Valid(p) && p.currentPage == 1 && p.totalPages == 1
    ensures p.history == [] && p.shown == []
  {
    Pager([], 1, 1, [])
  }

  /** The history load: installs the list, recomputes the page count, refreshes the page shown. */
  function Load<T>(p: Pager<T>, history: seq<T>): (r: Pager<T>)
    requires p.currentPage >= 1
    ensures Loaded(r) && r.history == history && r.currentPage == p.currentPage
    ensures r.shown == PageSlice(history, p.currentPage)
    ensures p.currentPage == 1 ==> Valid(r)
  {
    Pager(history, p.currentPage, PageCount(|history|), PageSlice(history, p.currentPage))
  }

  /** `nextPage`: one page forward only while the current page is below the count. */
  function NextPage<T>(p: Pager<T>): (r: Pager<T>)
    requires p.currentPage >= 1
    ensures r.history == p.history && r.totalPages == p.totalPages
    ensures p.currentPage < p.totalPages ==>
              r.currentPage == p.currentPage + 1 && r.shown == PageSlice(p.history, r.currentPage)
    ensures p.currentPage >= p.totalPages ==> r == p
    ensures Valid(p) ==> Valid(r)
  {
    if p.currentPage < p.totalPages then
      var page := p.currentPage + 1;
      p.(currentPage := page, shown := PageSlice(p.history, page))
    else p
  }

  /** `previousPage`: one page back only while above page 1. */
  function PreviousPage<T>(p: Pager<T>): (r: Pager<T>)
    ensures r.history == p.history && r.totalPages == p.totalPages
    ensures p.currentPage > 1 ==>
              r.currentPage == p.currentPage - 1 && r.shown == PageSlice(p.history, r.currentPage)
    ensures p.currentPage <= 1 ==> r == p
    ensures r.currentPage >= Min(1, p.currentPage)
    ensures Valid(p) ==> Valid(r)
  {
    if p.currentPage > 1 then
      var page := p.currentPage - 1;
      p.(currentPage := page, shown := PageSlice(p.history, page))
    else p
  }

  /** `goToPage(page)`: takes effect only for 1 <= page <= totalPages. */
  function GoToPage<T>(p: Pager<T>, page: int): (r: Pager<T>)
    ensures r.history == p.history && r.totalPages == p.totalPages
    ensures 1 <= page <= p.totalPages ==>
              r.currentPage == page && r.shown == PageSlice(p.history, page)
    ensures !(1 <= page <= p.totalPages) ==> r == p
    ensures Valid(p) ==> Valid(r)
  {
    if 1 <= page <= p.totalPages then p.(currentPage := page, shown := PageSlice(p.history, page))
    else p
  }

  /** Next then previous returns to where it started whenever next moved. */
  lemma PreviousUndoesNext<T>(p: Pager<T>)
    requires Valid(p) && p.currentPage < p.totalPages
    ensures PreviousPage(NextPage(p)) == p
  {
  }

  /** Previous then next returns to where it started whenever previous moved. */
  lemma NextUndoesPrevious<T>(p: Pager<T>)
    requires Valid(p) && p.currentPage > 1
    ensures NextPage(PreviousPage(p)) == p
  {
  }

  /** Going to the current page, or to a page twice, changes nothing more. */
  lemma GoToPageIdempotent<T>(p: Pager<T>, page: int)
    requires Valid(p)
    ensures GoToPage(p, p.currentPage) == p
    ensures GoToPage(GoToPage(p, page), page) == GoToPage(p, page)
  {
  }

  /** A user action on the pager. */
  datatype Nav = Next | Previous | GoTo(page: int)

  function Apply<T>(p: Pager<T>, op: Nav): (r: Pager<T>)
    requires p.currentPage >= 1
    ensures r.currentPage >= 1
    ensures r.history == p.history && r.totalPages == p.totalPages
    ensures Valid(p) ==> Valid(r)
  {
    match op
    case Next => NextPage(p)
    case Previous => PreviousPage(p)
    case GoTo(page) => GoToPage(p, page)
  }

  /** Any sequence of actions keeps the pager valid and never alters the history or the page count. */
  function Run<T>(p: Pager<T>, ops: seq<Nav>): (r: Pager<T>)
    requires p.currentPage >= 1
    ensures r.currentPage >= 1
    ensures r.history == p.history && r.totalPages == p.totalPages
    ensures Valid(p) ==> Valid(r)
    ensures Loaded(p) ==> Loaded(r)
    decreases |ops|
  {
    if ops == [] then p else Run(Apply(p, ops[0]), ops[1..])
  }

  /** Before the load nothing can move the page: with a count of 1, every action leaves page 1. */
  lemma {:induction false} NavigationBeforeLoadStaysOnFirstPage<T>(ops: seq<Nav>)
    ensures Run(Init<T>(), ops) == Init<T>()
    decreases |ops|
  {
    if ops != [] {
      assert Apply(Init<T>(), ops[0]) == Init<T>();
      NavigationBeforeLoadStaysOnFirstPage<T>(ops[1..]);
    }
  }

  /** The reachable states: build, act, load, act. The page stays in [1, max(1, totalPages)] and the screen shows its slice. */
  lemma {:induction false} ReachableStatesAreValid<T>(history: seq<T>, before: seq<Nav>, after: seq<Nav>)
    ensures var loaded := Load(Run(Init<T>(), before), history);
            var r := Run(loaded, after);
            && Valid(r) && Loaded(r)
            && 1 <= r.currentPage <= Max(1, PageCount(|history|))
  {
    NavigationBeforeLoadStaysOnFirstPage<T>(before);
  }
}

=== FILE: purchase_history.dfy ===
/**
 * The purchase history view model: the shared pagination over purchase records, plus
 * the detail lookup that selects a purchase by id from the full history (not only the
 * page on screen).
 */
module PurchaseHistory {
  import opened Wrappers
  import opened Pagination

  datatype PurchaseStatus = Delivered | Pending | Cancelled

  /** A purchase record; the amount is a `Double` in the app and a `real` here (it is only displayed). */
  datatype PurchaseHistoryItem = PurchaseHistoryItem(
    id: int,
    productName: string,
    productDescription: string,
    orderDate: string,
    deliveryDate: string,
    totalAmount: real,
    pointsEarned: int,
    status: PurchaseStatus,
    imageUrl: string,
    deliveryAddress: string,
    orderTime: string,
    deliveryTime: string,
    restaurant: string,
    paymentMethod: string,
    orderNumber: string)

  /** The view model's state: the pager and the selected purchase. */
  datatype PurchaseScreen = PurchaseScreen(pager: Pager<PurchaseHistoryItem>, selected: Option<PurchaseHistoryItem>)

  /** `find { it.id == id }`: the first item carrying the id, or none. */
  function FindById(items: seq<PurchaseHistoryItem>, id: int): (found: Option<PurchaseHistoryItem>)
    ensures found.None? <==> forall i :: 0 <= i < |items| ==> items[i].id != id
    ensures found.Some? ==>
              (exists i :: 0 <= i < |items| && items[i] == found.value && items[i].id == id
                 && (forall j :: 0 <= j < i ==> items[j].id != id))
  {
    if items == [] then None
    else if items[0].id == id then Some(items[0])
    else
      var rest := FindById(items[1..], id);
      assert forall i :: 1 <= i < |items| ==> items[i] == items[1..][i - 1];
      rest
  }

  /** `getPurchaseDetail(id)`: selects from the whole history; pagination is untouched. */
  function GetPurchaseDetail(s: PurchaseScreen, id: int): (r: PurchaseScreen)
    ensures r.pager == s.pager
    ensures r.selected.None? <==> forall i :: 0 <= i < |s.pager.history| ==> s.pager.history[i].id != id
    ensures r.selected.Some? ==>
              (exists i :: 0 <= i < |s.pager.history| && s.pager.history[i] == r.selected.value
                 && s.pager.history[i].id == id
                 && (forall j :: 0 <= j < i ==> s.pager.history[j].id != id))
  {
    s.(selected := FindById(s.pager.history, id))
  }

  /** With ids unique, the selection is the one item carrying the id, wherever its page is. */
  lemma DetailSelectsTheItem(s: PurchaseScreen, index: nat)
    requires index < |s.pager.history|
    requires forall i, j :: 0 <= i < j < |s.pager.history| ==> s.pager.history[i].id != s.pager.history[j].id
    ensures GetPurchaseDetail(s, s.pager.history[index].id).selected == Some(s.pager.history[index])
  {
    var found := FindById(s.pager.history, s.pager.history[index].id);
    var i :| 0 <= i < |s.pager.history| && s.pager.history[i] == found.value
             && s.pager.history[i].id == s.pager.history[index].id;
    assert i == index;
  }

  /** The fifteen sample purchases make two pages: ten on the first, five on the second, none beyond. */
  lemma FifteenPurchasesMakeTwoPages(history: seq<PurchaseHistoryItem>)
    requires |history| == 15
    ensures var p := Load(Init(), history);
            && p.totalPages == 2
            && p.shown == history[..10]
            && NextPage(p).shown == history[10..]
            && NextPage(NextPage(p)) == NextPage(p)
            && GoToPage(p, 3) == p
  {
  }
}

=== FILE: recycle_level.dfy ===
/**
 * The score screen's recycle level: a five-tier threshold table over the user's point
 * total. Each tier names the points it starts at and, except the top one, the points at
 * which the next tier starts.
 */
module RecycleLevel {
  import opened Wrappers
  import SessionStore

  datatype RecycleLevel = RecycleLevel(
    name: string,
    icon: string,
    color: string,
    description: string,
    pointsRequired: int,
    nextLevelPoints: Option<int>,
    benefits: seq<string>)

  const EcoMaster: RecycleLevel := RecycleLevel(
    "Eco Master", "🌟", "#FFD700", "Reciclador experto", 2000, None,
    ["20% descuento adicional", "Envío gratis premium", "Soporte prioritario"])
  const EcoExpert: RecycleLevel := RecycleLevel(
    "Eco Expert", "🏆", "#FF8000", "Reciclador avanzado", 1500, Some(2000),
    ["15% descuento adicional", "Canjes exclusivos", "Puntos dobles"])
  const EcoChampion: RecycleLevel := RecycleLevel(
    "Eco Champion", "🥇", "#4B0082", "Reciclador comprometido", 1000, Some(1500),
    ["10% descuento adicional", "Envío gratis", "Ofertas especiales"])
  const EcoFriend: RecycleLevel := RecycleLevel(
    "Eco Friend", "🌱", "#32CD32", "Reciclador activo", 500, Some(1000),
    ["5% descuento adicional", "Canjes básicos", "Alertas de ofertas"])
  const EcoBeginner: RecycleLevel := RecycleLevel(
    "Eco Beginner", "🌿", "#90EE90", "Nuevo reciclador", 0, Some(500),
    ["Bienvenida", "Puntos básicos", "Acceso a canjes"])

  /** The tiers from the top down. */
  const Tiers: seq<RecycleLevel> := [EcoMaster, EcoExpert, EcoChampion, EcoFriend, EcoBeginner]

  /** The points interval a tier covers: from its own threshold up to, not including, the next one. */
  predicate Covers(level: RecycleLevel, points: int)
  {
    level.pointsRequired <= points && (level.nextLevelPoints.None? || points < level.nextLevelPoints.value)
  }

  /**
   * `calculateRecycleLevel(totalPoints)`: the first tier, from the top, whose threshold
   * the total reaches; anything below 500, negative totals included, is Eco Beginner.
   */
  function CalculateRecycleLevel(totalPoints: int): (level: RecycleLevel)
    ensures level in Tiers
    ensures totalPoints >= 0 ==> Covers(level, totalPoints)
    ensures totalPoints < 0 ==> level == EcoBeginner
    ensures level.nextLevelPoints.Some? ==> totalPoints < level.nextLevelPoints.value
  {
    if totalPoints >= 2000 then EcoMaster
    else if totalPoints >= 1500 then EcoExpert
    else if totalPoints >= 1000 then EcoChampion
    else if totalPoints >= 500 then EcoFriend
    else EcoBeginner
  }

  /** The tiers' intervals do not overlap: for a non-negative total, the covering tier is the level. */
  lemma {:induction false} LevelIsTheCoveringTier(totalPoints: int, i: nat)
    requires totalPoints >= 0 && i < |Tiers| && Covers(Tiers[i], totalPoints)
    ensures CalculateRecycleLevel(totalPoints) == Tiers[i]
  {
    assert Tiers[0] == EcoMaster && Tiers[1] == EcoExpert && Tiers[2] == EcoChampion;
    assert Tiers[3] == EcoFriend && Tiers[4] == EcoBeginner;
  }

  /** More points never give a lower threshold. */
  lemma LevelMonotone(p: int, q: int)
    requires p <= q
    ensures CalculateRecycleLevel(p).pointsRequired <= CalculateRecycleLevel(q).pointsRequired
  {
  }

  /** Each tier's next-level points are where the tier directly above starts, and that tier is a different one. */
  lemma NextLevelChains(totalPoints: int)
    ensures var level := CalculateRecycleLevel(totalPoints);
            level.nextLevelPoints.Some? ==>
              var above := CalculateRecycleLevel(level.nextLevelPoints.value);
              && above.pointsRequired == level.nextLevelPoints.value
              && above != level
              && (forall q :: totalPoints <= q < level.nextLevelPoints.value ==>
                    CalculateRecycleLevel(q).pointsRequired <= level.pointsRequired)
  {
  }

  /** The call site: `calculateRecycleLevel(userData?.totalPoints ?: 0)`. */
  function LevelForUser(user: Option<SessionStore.UserData>): (level: RecycleLevel)
    ensures user.None? ==> level == EcoBeginner
    ensures user.Some? ==> Covers(level, user.value.totalPoints) || (user.value.totalPoints < 0 && level == EcoBeginner)
  {
    CalculateRecycleLevel(if user.Some? then user.value.totalPoints else 0)
  }

  /** Sample totals: 1850 points is Eco Expert, 2000 exactly is Eco Master, 499 is still Eco Beginner. */
  lemma SampleLevels()
    ensures CalculateRecycleLevel(1850).name == "Eco Expert"
    ensures CalculateRecycleLevel(2000).name == "Eco Master" && CalculateRecycleLevel(2000).nextLevelPoints.None?
    ensures CalculateRecycleLevel(499).name == "Eco Beginner"
    ensures CalculateRecycleLevel(-50) == CalculateRecycleLevel(0)
  {
  }
}

=== FILE: session_store.dfy ===
/**
 * The preferences manager: the session persisted in a key-value store and published
 * through two observable cells, the current user and the auth token.
 *
 * The store is a finite map from the nine preference keys to typed values. The two
 * observable cells are plain fields of the state. Every edit of the store is one
 * transaction that either commits or throws (`Edit`); the collector started at
 * construction is a step, `Collect`, that runs whenever the store emits, i.e. once at
 * start-up and again after every committed edit.
 */
module SessionStore {
  import opened Wrappers
  import opened Exceptions
  import opened LoginModel

  datatype Key =
    | UserId | UserEmail | UserFullName | UserIsAdmin | UserTotalPoints
    | AccessToken | RefreshToken | TokenType | ExpiresIn

  /** The name each key is stored under. */
  function KeyName(k: Key): string
  {
    match k
    case UserId => "user_id"
    case UserEmail => "user_email"
    case UserFullName => "user_full_name"
    case UserIsAdmin => "user_is_admin"
    case UserTotalPoints => "user_total_points"
    case AccessToken => "access_token"
    case RefreshToken => "refresh_token"
    case TokenType => "token_type"
    case ExpiresIn => "expires_in"
  }

  /** Distinct keys are stored under distinct names, so no write to one key can reach another. */
  lemma KeyNamesDistinct(k1: Key, k2: Key)
    ensures KeyName(k1) == KeyName(k2) <==> k1 == k2
  {
  }

  datatype Kind = IntKind | StringKind | BoolKind

  /** The declared type of each key: `intPreferencesKey`, `stringPreferencesKey` or `booleanPreferencesKey`. */
  function KindOf(k: Key): Kind
  {
    match k
    case UserId | UserTotalPoints | ExpiresIn => IntKind
    case UserIsAdmin => BoolKind
    case _ => StringKind
  }

  datatype Value = IntValue(i: int) | StringValue(s: string) | BoolValue(b: bool)

  function KindOfValue(v: Value): Kind
  {
    match v
    case IntValue(_) => IntKind
    case StringValue(_) => StringKind
    case BoolValue(_) => BoolKind
  }

  type Preferences = map<Key, Value>

  const AllKeys: set<Key> :=
    {UserId, UserEmail, UserFullName, UserIsAdmin, UserTotalPoints, AccessToken, RefreshToken, TokenType, ExpiresIn}

  /** The nine keys are all the keys there are. */
  lemma AllKeysCovered()
    ensures forall k: Key :: k in AllKeys
  {
    forall k: Key ensures k in AllKeys {
      match k
      case UserId =>
      case UserEmail =>
      case UserFullName =>
      case UserIsAdmin =>
      case UserTotalPoints =>
      case AccessToken =>
      case RefreshToken =>
      case TokenType =>
      case ExpiresIn =>
    }
  }

  /** Every stored value has its key's declared type; the typed setters keep it so. */
  predicate WellTyped(prefs: Preferences)
  {
    forall k :: k in prefs ==> KindOfValue(prefs[k]) == KindOf(k)
  }

  function GetInt(prefs: Preferences, k: Key): (r: Option<int>)
    requires WellTyped(prefs) && KindOf(k) == IntKind
    ensures r.Some? <==> k in prefs
    ensures r.Some? ==> prefs[k] == IntValue(r.value)
  {
    if k in prefs then Some(prefs[k].i) else None
  }

  function GetString(prefs: Preferences, k: Key): (r: Option<string>)
    requires WellTyped(prefs) && KindOf(k) == StringKind
    ensures r.Some? <==> k in prefs
    ensures r.Some? ==> prefs[k] == StringValue(r.value)
  {
    if k in prefs then Some(prefs[k].s) else None
  }

  function GetBool(prefs: Preferences, k: Key): (r: Option<bool>)
    requires WellTyped(prefs) && KindOf(k) == BoolKind
    ensures r.Some? <==> k in prefs
    ensures r.Some? ==> prefs[k] == BoolValue(r.value)
  {
    if k in prefs then Some(prefs[k].b) else None
  }

  /** The published user: identity plus token material, the latter nullable. */
  datatype UserData = UserData(
    id: int,
    email: string,
    fullName: string,
    isAdmin: bool,
    totalPoints: int,
    accessToken: Option<string>,
    refreshToken: Option<string>,
    tokenType: Option<string>,
    expiresIn: Option<int>)

  /** The store and the two observable cells. */
  datatype Session = Session(prefs: Preferences, userData: Option<UserData>, authToken: Option<string>)

  /** The outcome of one store transaction. */
  datatype Edit = Committed | Failed(error: Exception)

  /** Construction: both cells start out null, whatever the store already holds. */
  function Open(prefs: Preferences): (s: Session)
    ensures s.prefs == prefs && s.userData.None? && s.authToken.None?
  {
    Session(prefs, None, None)
  }

  /**
   * One run of the collector body: publishes a user only when id, email and full name
   * are all stored (admin flag and points default to false and 0); otherwise leaves the
   * previously published user in place. The token cell always takes the stored token.
   */
  function Collect(s: Session): (r: Session)
    requires WellTyped(s.prefs)
    ensures r.prefs == s.prefs
    ensures r.authToken == GetString(s.prefs, AccessToken)
    ensures r.userData != s.userData ==> UserId in s.prefs && UserEmail in s.prefs && UserFullName in s.prefs
    ensures UserId in s.prefs && UserEmail in s.prefs && UserFullName in s.prefs ==>
              && r.userData.Some?
              && Some(r.userData.value.id) == GetInt(s.prefs, UserId)
              && Some(r.userData.value.email) == GetString(s.prefs, UserEmail)
              && Some(r.userData.value.fullName) == GetString(s.prefs, UserFullName)
              && r.userData.value.isAdmin == GetBool(s.prefs, UserIsAdmin).GetOr(false)
              && r.userData.value.totalPoints == GetInt(s.prefs, UserTotalPoints).GetOr(0)
              && r.userData.value.accessToken == r.authToken
              && r.userData.value.refreshToken == GetString(s.prefs, RefreshToken)
              && r.userData.value.tokenType == GetString(s.prefs, TokenType)
              && r.userData.value.expiresIn == GetInt(s.prefs, ExpiresIn)
  {
    var userId := GetInt(s.prefs, UserId);
    var userEmail := GetString(s.prefs, UserEmail);
    var userFullName := GetString(s.prefs, UserFullName);
    var userIsAdmin := GetBool(s.prefs, UserIsAdmin);
    var userTotalPoints := GetInt(s.prefs, UserTotalPoints);
    var accessToken := GetString(s.prefs, AccessToken);
    var refreshToken := GetString(s.prefs, RefreshToken);
    var tokenType := GetString(s.prefs, TokenType);
    var expiresIn := GetInt(s.prefs, ExpiresIn);
    var userData :=
      if userId.Some? && userEmail.Some? && userFullName.Some? then
        Some(UserData(
          userId.value, userEmail.value, userFullName.value,
          userIsAdmin.GetOr(false), userTotalPoints.GetOr(0),
          accessToken, refreshToken, tokenType, expiresIn))
      else s.userData;
    Session(s.prefs, userData, accessToken)
  }

  /** The collector is idempotent: a second emission of the same store publishes nothing new. */
  lemma CollectIdempotent(s: Session)
    requires WellTyped(s.prefs)
    ensures Collect(Collect(s)) == Collect(s)
  {
  }

  /** The user `saveLoginResult` publishes: a field-for-field copy of the result. */
  function UserFromResult(result: LoginResult): (u: UserData)
    ensures u.id == result.user.id && u.email == result.user.email && u.fullName == result.user.full_name
    ensures u.isAdmin == result.user.is_admin && u.totalPoints == result.user.total_points
    ensures u.accessToken == Some(result.access_token) && u.refreshToken == Some(result.refresh_token)
    ensures u.tokenType == Some(result.token_type) && u.expiresIn == Some(result.expires_in)
  {
    UserData(
      result.user.id, result.user.email, result.user.full_name,
      result.user.is_admin, result.user.total_points,
      Some(result.access_token), Some(result.refresh_token),
      Some(result.token_type), Some(result.expires_in))
  }

  /** The nine writes of `saveLoginResult`, applied on top of whatever the store held. */
  function WriteLoginResult(prefs: Preferences, result: LoginResult): Preferences
  {
    prefs[UserId := IntValue(result.user.id)]
         [UserEmail := StringValue(result.user.email)]
         [UserFullName := StringValue(result.user.full_name)]
         [UserIsAdmin := BoolValue(result.user.is_admin)]
         [UserTotalPoints := IntValue(result.user.total_points)]
         [AccessToken := StringValue(result.access_token)]
         [RefreshToken := StringValue(result.refresh_token)]
         [TokenType := StringValue(result.token_type)]
         [ExpiresIn := IntValue(result.expires_in)]
  }

  /**
   * `saveLoginResult`: the store edit first; only when it commits are the user and the
   * token published. A failed edit throws and publishes nothing.
   */
  function SaveLoginResult(s: Session, result: LoginResult, edit: Edit): (r: Result<Session>)
    ensures r.Err? <==> edit.Failed?
    ensures edit.Failed? ==> r.error == edit.error
    ensures r.Ok? ==>
              && r.value.prefs.Keys == AllKeys
              && WellTyped(r.value.prefs)
              && r.value.userData == Some(UserFromResult(result))
              && r.value.authToken == Some(result.access_token)
  {
    match edit
    case Failed(e) => Err(e)
    case Committed =>
      AllKeysCovered();
      Ok(Session(WriteLoginResult(s.prefs, result), Some(UserFromResult(result)), Some(result.access_token)))
  }

  /** After a committed save every key reads back exactly the result's value. */
  lemma SavedFieldsReadBack(s: Session, result: LoginResult)
    ensures var p := SaveLoginResult(s, result, Committed).value.prefs;
            && GetInt(p, UserId) == Some(result.user.id)
            && GetString(p, UserEmail) == Some(result.user.email)
            && GetString(p, UserFullName) == Some(result.user.full_name)
            && GetBool(p, UserIsAdmin) == Some(result.user.is_admin)
            && GetInt(p, UserTotalPoints) == Some(result.user.total_points)
            && GetString(p, AccessToken) == Some(result.access_token)
            && GetString(p, RefreshToken) == Some(result.refresh_token)
            && GetString(p, TokenType) == Some(result.token_type)
            && GetInt(p, ExpiresIn) == Some(result.expires_in)
  {
  }

  /**
   * Round trip: the collector run that follows a save, and a fresh start-up on the saved
   * store, both publish exactly the user and token the save published.
   */
  lemma SaveThenLoadRoundTrip(s: Session, result: LoginResult, other: Option<UserData>, token: Option<string>)
    ensures var saved := SaveLoginResult(s, result, Committed).value;
            && Collect(saved) == saved
            && Collect(Session(saved.prefs, other, token)) == saved
  {
    SavedFieldsReadBack(s, result);
  }

  /** `updateAccessToken`: only the `access_token` key changes; the token cell takes the new token; the user cell is untouched. */
  function UpdateAccessToken(s: Session, newToken: string, edit: Edit): (r: Result<Session>)
    ensures r.Err? <==> edit.Failed?
    ensures edit.Failed? ==> r.error == edit.error
    ensures r.Ok? ==>
              && r.value.prefs.Keys == s.prefs.Keys + {AccessToken}
              && r.value.prefs[AccessToken] == StringValue(newToken)
              && (forall k :: k in s.prefs && k != AccessToken ==> r.value.prefs[k] == s.prefs[k])
              && (WellTyped(s.prefs) ==> WellTyped(r.value.prefs))
              && r.value.authToken == Some(newToken)
              && r.value.userData == s.userData
  {
    match edit
    case Failed(e) => Err(e)
    case Committed => Ok(s.(prefs := s.prefs[AccessToken := StringValue(newToken)], authToken := Some(newToken)))
  }

  /**
   * Right after `updateAccessToken` the published user still carries the old token; the
   * next collector run replaces it with the new one and keeps the identity fields.
   */
  lemma UpdatedTokenReachesUserAfterCollect(s: Session, result: LoginResult, newToken: string)
    ensures var saved := SaveLoginResult(s, result, Committed).value;
            var updated := UpdateAccessToken(saved, newToken, Committed).value;
            var u := Collect(updated).userData.value;
            && updated.userData.value.accessToken == Some(result.access_token)
            && u.accessToken == Some(newToken)
            && u.id == result.user.id && u.email == result.user.email && u.fullName == result.user.full_name
            && u.isAdmin == result.user.is_admin && u.totalPoints == result.user.total_points
            && Collect(updated).authToken == Some(newToken)
  {
    var saved := SaveLoginResult(s, result, Committed).value;
    SavedFieldsReadBack(s, result);
    var updated := UpdateAccessToken(saved, newToken, Committed).value;
    assert GetString(updated.prefs, AccessToken) == Some(newToken);
  }

  /** `clearUserData`: an empty store, no user and no token. */
  function ClearUserData(s: Session, edit: Edit): (r: Result<Session>)
    ensures r.Err? <==> edit.Failed?
    ensures edit.Failed? ==> r.error == edit.error
    ensures r.Ok? ==> r.value.prefs == map[] && r.value.userData.None? && r.value.authToken.None?
  {
    match edit
    case Failed(e) => Err(e)
    case Committed => Ok(Session(map[], None, None))
  }

  /** Clearing twice is clearing once, and the collector run that follows a clear changes nothing. */
  lemma ClearIdempotent(s: Session)
    ensures var cleared := ClearUserData(s, Committed).value;
            && ClearUserData(cleared, Committed) == ClearUserData(s, Committed)
            && Collect(cleared) == cleared
  {
  }

  /** `isLoggedIn`: the token cell is non-null, even when the token is the empty string. */
  function IsLoggedIn(s: Session): (loggedIn: bool)
    ensures loggedIn <==> s.authToken.Some?
  {
    s.authToken != None
  }

  /** `getAccessToken`: the token cell; a token is available exactly when the session is logged in. */
  function GetAccessToken(s: Session): (token: Option<string>)
    ensures token == s.authToken
    ensures token.Some? <==> IsLoggedIn(s)
  {
    s.authToken
  }

  /** `getCurrentUser`: the user cell as last published, with no read of the store. */
  function GetCurrentUser(s: Session): (user: Option<UserData>)
    ensures user == s.userData
  {
    s.userData
  }

  /** Login status across the session's lifecycle: in after a save (whatever the token), still in after a token update, out after a clear. */
  lemma LoginStatusLifecycle(s: Session, result: LoginResult, newToken: string)
    ensures var saved := SaveLoginResult(s, result, Committed).value;
            var updated := UpdateAccessToken(saved, newToken, Committed).value;
            && IsLoggedIn(saved) && IsLoggedIn(updated)
            && !IsLoggedIn(ClearUserData(updated, Committed).value)
            && GetCurrentUser(ClearUserData(updated, Committed).value).None?
  {
  }

  /** A fresh start-up on an empty store publishes nobody: with no identity keys the user cell keeps its initial null. */
  lemma EmptyStoreHasNoSession()
    ensures Collect(Open(map[])) == Open(map[])
    ensures !IsLoggedIn(Collect(Open(map[])))
  {
  }

  /** Saving a result with zero points and access token "abc" logs the user in with 0 points. */
  lemma SaveScenario(s: Session, result: LoginResult)
    requires result.user.total_points == 0 && result.access_token == "abc"
    ensures var saved := SaveLoginResult(s, result, Committed).value;
            && IsLoggedIn(saved)
            && GetCurrentUser(saved).value.totalPoints == 0
            && GetAccessToken(saved) == Some("abc")
  {
  }
}

=== FILE: swap_history.dfy ===
/**
 * The swap (redemption) history view model: the shared pagination over swap records.
 */
module SwapHistory {
  import opened Pagination

  datatype SwapStatus = Active | Used | Expired

  datatype SwapHistoryItem = SwapHistoryItem(
    id: int,
    title: string,
    description: string,
    date: string,
    pointsUsed: int,
    status: SwapStatus)

  /** The sample history the view model loads. */
  const SampleHistory: seq<SwapHistoryItem> := [
    SwapHistoryItem(1, "Descuento 10%", "Usado en Restaurante ABC", "2024-01-15", 100, Used),
    SwapHistoryItem(2, "Envío Gratis", "Aplicado en pedido #123", "2024-01-14", 50, Used),
    SwapHistoryItem(3, "Cupón $5", "Válido hasta el 31/01", "2024-01-13", 200, Active),
    SwapHistoryItem(4, "Descuento 15%", "Usado en Tienda XYZ", "2024-01-12", 300, Used),
    SwapHistoryItem(5, "Puntos Extra", "Aplicado en cuenta", "2024-01-11", 150, Used),
    SwapHistoryItem(6, "Descuento VIP", "Válido hasta el 28/02", "2024-01-10", 500, Active),
    SwapHistoryItem(7, "Cupón $10", "Usado en Farmacia DEF", "2024-01-09", 400, Used),
    SwapHistoryItem(8, "Envío Express", "Aplicado en pedido #456", "2024-01-08", 75, Used),
    SwapHistoryItem(9, "Descuento 20%", "Expirado", "2024-01-07", 350, Expired),
    SwapHistoryItem(10, "Puntos Dobles", "Aplicado en cuenta", "2024-01-06", 200, Used),
    SwapHistoryItem(11, "Cupón $15", "Válido hasta el 15/02", "2024-01-05", 600, Active),
    SwapHistoryItem(12, "Descuento 25%", "Usado en Supermercado GHI", "2024-01-04", 450, Used),
    SwapHistoryItem(13, "Envío Gratis", "Aplicado en pedido #789", "2024-01-03", 50, Used),
    SwapHistoryItem(14, "Cupón $20", "Expirado", "2024-01-02", 800, Expired),
    SwapHistoryItem(15, "Descuento 30%", "Usado en Restaurante JKL", "2024-01-01", 600, Used)
  ]

  /** The sample loads as two pages; the second shows swaps 11 to 15, and next stops there. */
  lemma SampleHistoryPages()
    ensures var p := Load(Init(), SampleHistory);
            && p.totalPages == 2
            && |p.shown| == 10 && p.shown[0].id == 1 && p.shown[9].id == 10
            && var second := NextPage(p);
            && second.currentPage == 2
            && |second.shown| == 5 && second.shown[0].id == 11 && second.shown[4].id == 15
            && NextPage(second) == second
            && PreviousPage(second) == p
  {
  }

  /** For any swap history, the pages shown one after another are the whole history in order. */
  lemma SwapPagesReassembleHistory(history: seq<SwapHistoryItem>)
    ensures Pages(history, Load(Init(), history).totalPages) == history
  {
    PagesReassembleHistory(history);
  }

  /** For any swap history and any taps on next, previous or a page number, the page stays in range. */
  lemma SwapNavigationStaysInRange(history: seq<SwapHistoryItem>, ops: seq<Nav>)
    ensures var r := Run(Load(Init(), history), ops);
            && 1 <= r.currentPage <= Max(1, PageCount(|history|))
            && r.shown == PageSlice(history, r.currentPage)
  {
    ReachableStatesAreValid(history, [], ops);
  }
}

=== FILE: wrappers.dfy ===
/** Optional values: Kotlin's nullable types (`T?`) are modelled as `Option<T>`. */
module Wrappers {

  datatype Option<+T> = None | Some(value: T) {

    /** Kotlin's elvis operator `x ?: default`. */
    function GetOr(default: T): (r: T)
      ensures Some? ==> r == value
      ensures None? ==> r == default
    {
      match this
      case Some(v) => v
      case None => default
    }
  }
}
